=== FILE: README.md ===
# PortAudio PulseAudio host API: a Dafny model of its decision logic

This project models the deterministic rules inside PortAudio's PulseAudio
host API (`src/hostapi/pulseaudio/pa_hostapi_pulseaudio.c`). That code wraps
PulseAudio client-library calls, and the rules it applies around them are:

- the **underrun-adaptive latency controller** of an output stream
  (`PulseAudioStreamUnderflowCb`), module `LatencyController`;
- the **sample-format mapping** from PortAudio format tags to PulseAudio
  wire formats (`PulseAudioConvertPortaudioFormatToPulseAudio`), module
  `FormatMapping`;
- **format-support validation** (`IsFormatSupported`), module
  `FormatSupport`;
- **device enumeration**: the sink and source list callbacks that fill the
  device table, and the choice of default input and output devices in
  `PaPulseAudio_Initialize`, module `DeviceEnumerator`;
- the **connect wait** in `PaPulseAudio_Initialize`, module
  `ConnectionWait`;
- **open-stream validation and sizing** (`OpenStream`) and the blocking-mode
  ring buffer (`PulseAudioBlockingInitRingBuffer`), module `StreamOpen`.

Shared types live in `PaTypes`: PortAudio error codes, format and flag bit
sets, stream parameters, device records and `pa_sample_spec`.

Everything is a pure function over immutable datatypes, except three
methods: the default-device pass and the connect poll, whose loops mirror
the source's loops, and `PublishDevices`, which calls the default-device
pass. Calls into the PulseAudio library and PortAudio's utilities are
parameters with no further assumptions:

- function-typed parameters stand for `pa_usec_to_bytes`,
  `Pa_GetSampleSize`, `pa_sample_spec_valid`, `malloc`,
  `PaUtil_InitializeRingBuffer` and `pa_stream_new`;
- plain values stand for single outcomes: whether the stream structure
  (`PaUtil_AllocateMemory`), the device-pointer array and the two name copies
  (`PaUtil_GroupAllocateMemory`) could be allocated, the buffer processor
  initialiser's result, and whether an underrunning stream still has its
  handle.

`StreamOpen.Env` bundles the ones `OpenStream` uses.

## Notes on the source's behaviour

- The latency guard of 2,000,000 µs decides *whether* latency grows. It does
  not cap the result. One escalation from 1,999,999 µs gives 2,999,998 µs
  (`OvershootsGuard`). The true bound is one and a half times the guard
  (`LatencyBounded`).
- `OpenStream` has no custom-format check. The conversion's error is
  ignored, so nothing in `OpenStream` itself rejects a custom format.
- A device table with more than 1024 entries is not reported as an error.
  The source writes past the array, so the bound is a precondition.
- A failed connection (FAILED or TERMINATED) makes `PaPulseAudio_Initialize`
  jump to its error label with `result` still `paNoError`. It then returns
  `paNoError` after freeing the host API. The model covers the decision to
  give up (`ConnectionWait`) but does not carry that return value forward.
- `OpenStream` reports every failure after the flag test as
  `paNotInitialized` and, once the stream structure has been allocated,
  also frees the host API. See "Findings".

## Model

| member | source | states |
|---|---|---|
| `LatencyController.OnUnderflow` | src/hostapi/pulseaudio/pa_hostapi_pulseaudio.c:389-415 | One underrun: the counter rises by one. On reaching 6 with latency below 2,000,000 µs, latency becomes floor(3L/2), the counter resets to 0, and maxlength and tlength are both set to the 32-bit truncated byte size of the new latency. The other attributes and the sample spec stay as they were, and the new attributes are pushed to the server. Otherwise nothing else changes. A missing stream handle changes nothing (in a build with assertions disabled; see "Left out"). |
| `LatencyController.LatencyNeverDecreases` | src/hostapi/pulseaudio/pa_hostapi_pulseaudio.c:402-410 | After any number of underruns the latency is at least what it was. |
| `LatencyController.FrozenAtGuard` | src/hostapi/pulseaudio/pa_hostapi_pulseaudio.c:402-410 | Once latency is at or above the guard, n underruns only add n to the counter, which is never reset again. |
| `LatencyController.QuietBelowThreshold` | src/hostapi/pulseaudio/pa_hostapi_pulseaudio.c:402-404 | While the counter stays below 6, underruns only count. |
| `LatencyController.SixthUnderrunEscalates` | src/hostapi/pulseaudio/pa_hostapi_pulseaudio.c:402-410 | From a zero counter below the guard, five underruns leave latency alone. The sixth sets it to 3L/2 and resets the counter. |
| `LatencyController.CounterStaysInRange` | src/hostapi/pulseaudio/pa_hostapi_pulseaudio.c:402-410 | While latency is below the guard the counter stays below 6. This is an invariant of every underrun sequence. |
| `LatencyController.LatencyBounded` | src/hostapi/pulseaudio/pa_hostapi_pulseaudio.c:404-406 | Latency that starts below 3,000,000 µs stays below it. |
| `LatencyController.OvershootsGuard` | src/hostapi/pulseaudio/pa_hostapi_pulseaudio.c:404-406 | An escalation just below the guard ends above it, at 2,999,998 µs. |
| `LatencyController.TinyLatencyIsStuck` | src/hostapi/pulseaudio/pa_hostapi_pulseaudio.c:406 | A latency of 0 or 1 µs never grows, because integer 3L/2 equals L there. |
| `LatencyController.EscalationGrows` | src/hostapi/pulseaudio/pa_hostapi_pulseaudio.c:406 | Any escalation from a latency of at least 2 µs strictly increases it. |
| `FormatMapping.ConvertFormat` | src/hostapi/pulseaudio/pa_hostapi_pulseaudio.c:750-787 | Custom and non-interleaved tags, and only those, give paNotInitialized. Tags outside the switch leave the spec untouched with no error. Every standard tag selects a wire format with the same sample width and the same float or integer kind. It also keeps signedness for every tag except paInt8. Rate and channels are never touched. |
| `FormatMapping.WireFormatRoundTrip` | src/hostapi/pulseaudio/pa_hostapi_pulseaudio.c:753-777 | Each of the five wire formats is produced by its natural PortAudio tag. |
| `FormatMapping.PortAudioFormatRoundTrip` | src/hostapi/pulseaudio/pa_hostapi_pulseaudio.c:753-777 | Mapping a standard tag to the wire and back returns it unchanged, except that paInt8 comes back as paUInt8. |
| `FormatMapping.OnlyEightBitFormatsCollide` | src/hostapi/pulseaudio/pa_hostapi_pulseaudio.c:771-777 | Two distinct standard tags share a wire format exactly when they are paInt8 and paUInt8. |
| `FormatSupport.IsFormatSupported` | src/hostapi/pulseaudio/pa_hostapi_pulseaudio.c:636-748 | The result is paFormatIsSupported exactly when every present direction passes all four checks. Otherwise it is one of the four check errors, and a failing input decides the answer before the output is looked at. |
| `FormatSupport.IsFormatSupportedIsFirstFailure` | src/hostapi/pulseaudio/pa_hostapi_pulseaudio.c:644-747 | The answer is the error of the first failing check in the list: input's custom bit, device, channels and stream info, then the same four for output. |
| `FormatSupport.DirectionVerdictIsFirstFailure` | src/hostapi/pulseaudio/pa_hostapi_pulseaudio.c:644-676 | For one direction, the nested tests agree with the ordered list of four checks. |
| `FormatSupport.SampleRateIgnored` | src/hostapi/pulseaudio/pa_hostapi_pulseaudio.c:744-747 | The sample rate never changes the answer. |
| `FormatSupport.TooManyChannelsRejected` | src/hostapi/pulseaudio/pa_hostapi_pulseaudio.c:664-668 | A direction with a real device, no custom bit and more channels than the device offers is rejected with paInvalidChannelCount. |
| `DeviceEnumerator.Truncate` | src/hostapi/pulseaudio/pa_hostapi_pulseaudio.c:240-250 | A stored name is the first 1024 characters of the original, or the whole original when it is shorter. |
| `DeviceEnumerator.RecordContents` | src/hostapi/pulseaudio/pa_hostapi_pulseaudio.c:230-261 | A sink record has no input channels and the sink's channel count as outputs. A source record is the reverse, so one of the two counts is always zero. The name is the description, or the internal name when there is no description, cut to its first 1024 characters. The record also keeps the struct version 2, the host API index and the rate. |
| `DeviceEnumerator.OnListEntry` | src/hostapi/pulseaudio/pa_hostapi_pulseaudio.c:209-331 | An end-of-list call, a missing context (in a build with assertions disabled; see "Left out") or a failed name allocation leaves the table unchanged. Any other call appends exactly one record and one truncated internal name, and leaves earlier records untouched. |
| `DeviceEnumerator.DeliverList` | src/hostapi/pulseaudio/pa_hostapi_pulseaudio.c:502-527 | One listing appends exactly the entries' records, in delivery order, to the existing records, and exactly their truncated internal names to the existing names. Earlier records and names stay unchanged. |
| `DeviceEnumerator.Enumerate` | src/hostapi/pulseaudio/pa_hostapi_pulseaudio.c:496-527 | The table is exactly the sink records in order followed by the source records in order. The internal-name table is the sinks' truncated names followed by the sources'. |
| `DeviceEnumerator.EnumeratePlacesEntries` | src/hostapi/pulseaudio/pa_hostapi_pulseaudio.c:496-527 | Sink i is device i and source j is device |sinks| + j. Each device's internal name is its entry's truncated name, at the same index. |
| `DeviceEnumerator.ListingRecords` | src/hostapi/pulseaudio/pa_hostapi_pulseaudio.c:230-261 | A listing contributes one record per entry, the i-th built from the i-th entry. |
| `DeviceEnumerator.DefaultIsUnique` | src/hostapi/pulseaudio/pa_hostapi_pulseaudio.c:553-564 | The default-device rule picks exactly one index per direction. |
| `DeviceEnumerator.SelectDefaults` | src/hostapi/pulseaudio/pa_hostapi_pulseaudio.c:549-564 | Each default is the least index with a positive channel count for its direction, or -1 if there is none. |
| `DeviceEnumerator.PublishDevices` | src/hostapi/pulseaudio/pa_hostapi_pulseaudio.c:529-567 | The published device count equals the table size. With an empty table both defaults stay paNoDevice. With a non-empty table, a failed pointer-array allocation gives paInsufficientMemory, and otherwise the defaults follow the rule above. |
| `DeviceEnumerator.DefaultsFollowListingOrder` | src/hostapi/pulseaudio/pa_hostapi_pulseaudio.c:502-564 | The default output is always a sink and the default input always a source. A sink with channels guarantees an output default. |
| `DeviceEnumerator.DefaultsByChannels` | src/hostapi/pulseaudio/pa_hostapi_pulseaudio.c:553-564 | In any table whose first devices have no input channels and the rest no output channels, the output default comes from the first group, and the input default from the second. A first-group device with output channels guarantees an output default. |
| `DeviceEnumerator.TwoSinksOneSource` | src/hostapi/pulseaudio/pa_hostapi_pulseaudio.c:502-564 | With sinks of 2 and 1 channels and a 1-channel source, the table has 3 devices, the default output is 0 and the default input is 2. |
| `ConnectionWait.ConnectStep` | src/hostapi/pulseaudio/pa_hostapi_pulseaudio.c:461-488 | READY and only READY ends the wait with success. FAILED and TERMINATED, and only those, abandon it. |
| `ConnectionWait.AwaitConnection` | src/hostapi/pulseaudio/pa_hostapi_pulseaudio.c:457-492 | The wait connects exactly when the first non-transitional state observed is READY. It gives up exactly when that state is FAILED or TERMINATED. When it settles, `polls` is the index of the settling observation. Otherwise it polls through every observation. |
| `StreamOpen.InitRingBuffer` | src/hostapi/pulseaudio/pa_hostapi_pulseaudio.c:791-803 | A failed allocation gives the out-of-memory outcome. Otherwise the ring initialiser's code decides, and a ring that is ready has 4096 × frame-size one-byte elements. |
| `StreamOpen.OpenCheck` | src/hostapi/pulseaudio/pa_hostapi_pulseaudio.c:857-878 | A direction passes exactly when it names a real device, asks for no more channels than the device has, and carries no stream info. A failure is one of the three check errors. `IsFormatSupported` gives that same error, or the custom-format error that comes first there. |
| `StreamOpen.OpenStreamAsWritten` | src/hostapi/pulseaudio/pa_hostapi_pulseaudio.c:807-1063 | As the source does it: paInvalidFlag exactly for platform-specific flags, and otherwise paNoError with a stream or paNotInitialized. The host API is freed exactly on a paNotInitialized after the stream structure was allocated. |
| `StreamOpen.OpenStream` | src/hostapi/pulseaudio/pa_hostapi_pulseaudio.c:807-1063 | Corrected: the flag test comes first, and a failed stream allocation gives paInsufficientMemory. A stream exists exactly on success, and then it matches the request. It has the right directions and blocking mode, and the output device when there is one. Each direction's frame size is sample size × channels, and its spec has the converted wire format and the requested rate and channel count. Each ring holds 4096 frames. An output ring exists exactly in blocking mode, and an input ring exists exactly in blocking mode when the ring initialiser succeeds. The host API is never freed. |
| `StreamOpen.OpenStreamReportsFirstCheck` | src/hostapi/pulseaudio/pa_hostapi_pulseaudio.c:852-951 | A failing input check is reported first. When the input gets through, a failing output check is reported. |
| `StreamOpen.OpenStreamAgreesWithIsFormatSupported` | src/hostapi/pulseaudio/pa_hostapi_pulseaudio.c:852-951 | Without custom formats, and with a valid input spec, a request that `IsFormatSupported` rejects is rejected by `OpenStream` with the same error. |
| `StreamOpen.SupportedRequestOpens` | src/hostapi/pulseaudio/pa_hostapi_pulseaudio.c:825-1051 | A request that `IsFormatSupported` accepts opens in both versions when no library call fails. In callback mode no ring is built, so a failing ring allocation does not matter there. |
| `StreamOpen.VersionsAgreeOnSuccess` | src/hostapi/pulseaudio/pa_hostapi_pulseaudio.c:1053-1062 | The two versions build the same stream. They differ only in reporting paNotInitialized for failures after the flag test. |
| `StreamOpen.ChannelCountErrorLost` | src/hostapi/pulseaudio/pa_hostapi_pulseaudio.c:939-944 | Too many output channels: `IsFormatSupported` and the corrected `OpenStream` say paInvalidChannelCount, while the source's `OpenStream` says paNotInitialized. |
| `StreamOpen.FailedOpenReleasesHostApi` | src/hostapi/pulseaudio/pa_hostapi_pulseaudio.c:1053-1062 | Every failure after the stream structure exists frees the host API in the source's version and never in the corrected one. |

## Findings

| source | as written | input that shows it | evidently intended | confidence | as-written member | corrected member |
|---|---|---|---|---|---|---|
| src/hostapi/pulseaudio/pa_hostapi_pulseaudio.c:1053-1062 | The error label returns `paNotInitialized` whatever `result` holds. | An output-only request whose channel count exceeds the device's `maxOutputChannels`, with no platform flags. | Return `result` (here paInvalidChannelCount), the answer `IsFormatSupported` gives for the same request. | not executed; high | `StreamOpen.OpenStreamAsWritten`, shown by `StreamOpen.ChannelCountErrorLost` | `StreamOpen.OpenStream` |
| src/hostapi/pulseaudio/pa_hostapi_pulseaudio.c:1056-1060 | Any failure after the stream structure is allocated frees the whole host API as well as the stream. | The same request. | Free only the stream; the host API stays usable. | not executed; high | `StreamOpen.OpenStreamAsWritten`, shown by `StreamOpen.FailedOpenReleasesHostApi` | `StreamOpen.OpenStream` |

## Left out

- Threading and synchronisation: the threaded main loop, lock/unlock, signal/wait and the `usleep` polling. The model sees the sequence of context states the loop observes.
- `PulseAudioNew`, `PulseAudioFree`, `PulseAudioCheckConnection`, `PulseAudioCheckContextStateCb` and `Terminate`. They create and release library objects and only record the context state.
- `PulseAudioStreamStateCb` only prints debug output. `IsStreamStopped` and `IsStreamActive` only return stored fields.
- The start, stop, abort and close operations, blocking read/write, and the data callbacks. Their bodies are not part of this model: the two headers hold only prototypes.
- `GetStreamTime`, `GetStreamCpuLoad` and the stream latencies in seconds. These are floating point or external collaborators.
- The return value of `PaPulseAudio_Initialize` after a failed connection. The source returns `paNoError` there; the model stops at the decision to give up.
- `OpenStream` ignores a failed `pa_stream_new` and a failed input ring buffer. Both versions model this as written: `created` is false, or the input ring is absent, and the open proceeds.
- LatencyController.OnUnderflow: `streamPresent == false` models a build with assertions disabled (`NDEBUG`). The null test follows `assert(s)` at :393, so a debug build aborts on a missing stream instead of changing nothing.
- DeviceEnumerator.OnListEntry: `contextPresent == false` likewise models a build with assertions disabled. The null tests in the list callbacks follow `assert(c)` at :215 and :276, so a debug build aborts on a missing context instead of leaving the table unchanged.
- LatencyController.OnUnderflow: the counter and the latency are unbounded naturals. The header that declares their C types is not part of this model, so a counter overflow after 2^31 underruns at the guard is not modelled.
- StreamOpen.OpenStream: the sample rate is a whole number of hertz that fits `uint32_t`. The source converts a `double`.
- FormatSupport.IsFormatSupported: the sample rate is a natural number. It is never read anyway.
- DeviceEnumerator.Truncate: names are `string`s and the model counts characters, while the source's `strnlen(_, 1024)` counts bytes of a UTF-8 C string. A name with multi-byte characters keeps fewer than 1024 characters in the source, which may also cut a character in half.
- DeviceEnumerator.RecordContents: the four device latencies are opaque numbers. The source stores PulseAudio's microsecond values into fields that PortAudio reads as seconds.
- DeviceEnumerator.Enumerate: every call has a context and every name allocation succeeds. `OnListEntry` models the failing cases one call at a time.
- DeviceEnumerator.OnListEntry: the 1024-entry capacity and the presence of an entry are preconditions. The source checks neither before writing.
- StreamOpen.InitRingBuffer: the ring initialiser's verdict is an uninterpreted function of the element count.
- FormatMapping.ConvertFormat: paInt8 data is sent as unsigned 8-bit PCM because PulseAudio has no signed 8-bit format. The model records this (`PortAudioFormatRoundTrip`) but does not model the buffer processor, which does no conversion here.

=== FILE: connection.dfy ===
/** The wait for the server connection in `PaPulseAudio_Initialize`.

    After issuing the connect request, initialization repeatedly takes the
    main-loop lock, reads the context state recorded by the state callback,
    releases the lock and sleeps briefly. READY ends the wait; FAILED or
    TERMINATED abandons initialization; every other state keeps polling.
    The locking and sleeping are left out: the model sees the sequence of
    states observed on successive polls.
 */
module ConnectionWait {

  /** `pa_context_state_t`. */
  datatype ContextState =
    | Unconnected
    | Connecting
    | Authorizing
    | SettingName
    | Ready
    | Failed
    | Terminated

  datatype WaitDecision = Connected | GiveUp | KeepPolling

  /** The decision taken on one observation of the context state. */
  function ConnectStep(s: ContextState): (d: WaitDecision)
    ensures d == Connected <==> s == Ready
    ensures d == GiveUp <==> s == Failed || s == Terminated
  {
    match s
    case Ready => Connected
    case Failed | Terminated => GiveUp
    case Unconnected | Connecting | Authorizing | SettingName => KeepPolling
  }

  /** A transitional state: one of the four that keep the loop polling. */
  predicate Transitional(s: ContextState)
  {
    s == Unconnected || s == Connecting || s == Authorizing || s == SettingName
  }

  /** Poll `k` is the first to see a state that is not transitional, and
      that state is READY (when `ready`) or FAILED/TERMINATED (otherwise). */
  predicate SettlesAt(observed: seq<ContextState>, k: int, ready: bool)
  {
    && 0 <= k < |observed|
    && (if ready then observed[k] == Ready else observed[k] == Failed || observed[k] == Terminated)
    && forall i :: 0 <= i < k ==> Transitional(observed[i])
  }

  /** The polling loop over the states seen on successive polls. `polls`
      counts the observations that kept it waiting. The loop connects
      exactly when READY is the first settled state observed, and gives up
      exactly when FAILED or TERMINATED is. */
  method AwaitConnection(observed: seq<ContextState>) returns (d: WaitDecision, polls: nat)
    ensures polls <= |observed|
    ensures forall i :: 0 <= i < polls ==> Transitional(observed[i])
    ensures d == Connected <==> exists k :: SettlesAt(observed, k, true)
    ensures d == GiveUp <==> exists k :: SettlesAt(observed, k, false)
    ensures d == KeepPolling <==> polls == |observed|
    ensures d != KeepPolling ==> SettlesAt(observed, polls, d == Connected)
  {
    polls := 0;
    while polls < |observed|
      invariant polls <= |observed|
      invariant forall i :: 0 <= i < polls ==> Transitional(observed[i])
    {
      d := ConnectStep(observed[polls]);
      if d != KeepPolling {
        assert SettlesAt(observed, polls, d == Connected);
        return;
      }
      polls := polls + 1;
    }
    d := KeepPolling;
  }
}

=== FILE: devices.dfy ===
/** Device enumeration: the sink and source list callbacks that fill the
    device table (`PulseAudioSinkListCb`, `PulseAudioSourceListCb`), and the
    choice of default devices in `PaPulseAudio_Initialize`.

    The table is a fixed array of 1024 records indexed by a running count;
    the callbacks never compare the count with the capacity, so that bound
    is a precondition here.
 */
module DeviceEnumerator {
  import opened PaTypes

  const MaxDevices: nat := 1024
  /** Names are copied with `strnlen(_, 1024)`. */
  const MaxNameLength: nat := 1024

  /** The fields of `pa_sink_info` / `pa_source_info` the callbacks read.
      `description` is `None` when the library passes a null pointer. */
  datatype ListEntry = ListEntry(
    name: string,
    description: Option<string>,
    channels: uint8,
    rate: uint32,
    latency: nat,
    configuredLatency: nat)

  /** Sinks become output devices, sources input devices. */
  datatype DeviceKind = Sink | Source

  /** One invocation of a list callback: whether the context pointer is
      non-null, the end-of-list argument, the entry (absent at the end of
      the list), and whether both name copies could be allocated. */
  datatype ListCall = ListCall(
    contextPresent: bool,
    eol: int,
    info: Option<ListEntry>,
    namesAllocated: bool)

  /** The device records and the parallel table of PulseAudio-internal
      names; only the first `deviceCount` slots of each are meaningful. */
  datatype DeviceTable = DeviceTable(
    hostApiIndex: int,
    devices: seq<DeviceRecord>,
    internalNames: seq<string>)

  predicate WellFormed(t: DeviceTable)
  {
    |t.devices| == |t.internalNames| <= MaxDevices
  }

  /** The first `strnlen(s, 1024)` characters of `s`. */
  function Truncate(s: string): (r: string)
    ensures r <= s
    ensures |r| == if |s| <= MaxNameLength then |s| else MaxNameLength
  {
    if |s| <= MaxNameLength then s else s[..MaxNameLength]
  }

  /** The name shown to applications: the description when there is one,
      otherwise the internal name. */
  function DisplayName(e: ListEntry): string
  {
    match e.description
    case Some(d) => d
    case None => e.name
  }

  function RecordFor(kind: DeviceKind, hostApi: int, e: ListEntry): DeviceRecord
  {
    match kind
    case Sink =>
      DeviceRecord(2, hostApi, Truncate(DisplayName(e)), 0, e.channels,
                   0, e.latency, 0, e.configuredLatency, e.rate)
    case Source =>
      DeviceRecord(2, hostApi, Truncate(DisplayName(e)), e.channels, 0,
                   e.latency, 0, e.configuredLatency, 0, e.rate)
  }

  /** What a record promises about its entry. */
  lemma RecordContents(kind: DeviceKind, hostApi: int, e: ListEntry)
    ensures var d := RecordFor(kind, hostApi, e);
      && d.structVersion == 2 && d.hostApi == hostApi
      && (kind == Sink ==> d.maxInputChannels == 0 && d.maxOutputChannels == e.channels)
      && (kind == Source ==> d.maxOutputChannels == 0 && d.maxInputChannels == e.channels)
      && (d.maxInputChannels == 0 || d.maxOutputChannels == 0)
      && (e.description.Some? ==> d.name <= e.description.value)
      && (e.description.None? ==> d.name <= e.name)
      && |d.name| == (if |DisplayName(e)| <= MaxNameLength then |DisplayName(e)| else MaxNameLength)
      && d.defaultSampleRate == e.rate
  {
  }

  /** An entry is recorded only when the context is present, the list has
      not ended, and both names could be copied. */
  predicate Records(c: ListCall)
  {
    c.contextPresent && c.eol <= 0 && c.namesAllocated
  }

  /** A callback that gets past the end-of-list test writes into slot
      `deviceCount` and reads the entry, with neither checked. */
  predicate CallOk(t: DeviceTable, c: ListCall)
  {
    c.contextPresent && c.eol <= 0 ==> c.info.Some? && |t.devices| < MaxDevices
  }

  /** One invocation of the sink or source list callback. */
  function OnListEntry(t: DeviceTable, kind: DeviceKind, c: ListCall): (r: DeviceTable)
    requires WellFormed(t) && CallOk(t, c)
    ensures WellFormed(r) && r.hostApiIndex == t.hostApiIndex
    ensures !Records(c) ==> r == t
    ensures Records(c) ==>
      && |r.devices| == |t.devices| + 1
      && r.devices[..|t.devices|] == t.devices
      && r.devices[|t.devices|] == RecordFor(kind, t.hostApiIndex, c.info.value)
      && r.devices == t.devices + [RecordFor(kind, t.hostApiIndex, c.info.value)]
      && r.internalNames == t.internalNames + [Truncate(c.info.value.name)]
  {
    if !c.contextPresent || c.eol > 0 || !c.namesAllocated then t
    else
      var e := c.info.value;
      t.(devices := t.devices + [RecordFor(kind, t.hostApiIndex, e)],
         internalNames := t.internalNames + [Truncate(e.name)])
  }

  function EntryCall(e: ListEntry): ListCall { ListCall(true, 0, Some(e), true) }

  const EndOfList: ListCall := ListCall(true, 1, None, true)

  /** The records one listing contributes, one per entry in order. */
  function ListingRecords(kind: DeviceKind, hostApi: int, entries: seq<ListEntry>): (r: seq<DeviceRecord>)
    ensures |r| == |entries|
    ensures forall i :: 0 <= i < |entries| ==> r[i] == RecordFor(kind, hostApi, entries[i])
  {
    if entries == [] then []
    else [RecordFor(kind, hostApi, entries[0])] + ListingRecords(kind, hostApi, entries[1..])
  }

  /** The internal names one listing contributes, one per entry in order. */
  function ListingNames(entries: seq<ListEntry>): (r: seq<string>)
    ensures |r| == |entries|
    ensures forall i :: 0 <= i < |entries| ==> r[i] == Truncate(entries[i].name)
  {
    if entries == [] then []
    else [Truncate(entries[0].name)] + ListingNames(entries[1..])
  }

  /** Appending one element and then the rest of a listing is appending
      the whole listing. */
  lemma AppendListing<T>(prefix: seq<T>, first: T, rest: seq<T>, whole: seq<T>)
    requires whole == [first] + rest
    ensures (prefix + [first]) + rest == prefix + whole
  {
  }

  /** Deliver one listing: every entry, then the end-of-list marker. */
  function DeliverList(t: DeviceTable, kind: DeviceKind, entries: seq<ListEntry>): (r: DeviceTable)
    requires WellFormed(t) && |t.devices| + |entries| <= MaxDevices
    ensures WellFormed(r) && r.hostApiIndex == t.hostApiIndex
    ensures r.devices == t.devices + ListingRecords(kind, t.hostApiIndex, entries)
    ensures r.internalNames == t.internalNames + ListingNames(entries)
    decreases |entries|
  {
    if entries == [] then OnListEntry(t, kind, EndOfList)
    else
      var t' := OnListEntry(t, kind, EntryCall(entries[0]));
      var r := DeliverList(t', kind, entries[1..]);
      AppendListing(t.devices, RecordFor(kind, t.hostApiIndex, entries[0]),
                    ListingRecords(kind, t.hostApiIndex, entries[1..]), ListingRecords(kind, t.hostApiIndex, entries));
      AppendListing(t.internalNames, Truncate(entries[0].name),
                    ListingNames(entries[1..]), ListingNames(entries));
      r
  }

  function EmptyTable(hostApiIndex: int): DeviceTable
  {
    DeviceTable(hostApiIndex, [], [])
  }

  /** The sink listing followed by the source listing, as initialization
      issues them. */
  function Enumerate(hostApiIndex: int, sinks: seq<ListEntry>, sources: seq<ListEntry>): (r: DeviceTable)
    requires |sinks| + |sources| <= MaxDevices
    ensures WellFormed(r)
    ensures r.devices == ListingRecords(Sink, hostApiIndex, sinks) + ListingRecords(Source, hostApiIndex, sources)
    ensures r.internalNames == ListingNames(sinks) + ListingNames(sources)
  {
    var afterSinks := DeliverList(EmptyTable(hostApiIndex), Sink, sinks);
    assert afterSinks.devices == ListingRecords(Sink, hostApiIndex, sinks);
    assert afterSinks.internalNames == ListingNames(sinks);
    DeliverList(afterSinks, Source, sources)
  }

  /** Where each entry of the two listings ends up in the table. */
  lemma ListingsInOrder(
    hostApiIndex: int, sinks: seq<ListEntry>, sources: seq<ListEntry>,
    devices: seq<DeviceRecord>, names: seq<string>)
    requires devices == ListingRecords(Sink, hostApiIndex, sinks) + ListingRecords(Source, hostApiIndex, sources)
    requires names == ListingNames(sinks) + ListingNames(sources)
    ensures forall i :: 0 <= i < |sinks| ==> devices[i] == RecordFor(Sink, hostApiIndex, sinks[i])
    ensures forall j :: 0 <= j < |sources| ==>
      devices[|sinks| + j] == RecordFor(Source, hostApiIndex, sources[j])
    ensures forall i :: 0 <= i < |sinks| ==> names[i] == Truncate(sinks[i].name)
    ensures forall j :: 0 <= j < |sources| ==> names[|sinks| + j] == Truncate(sources[j].name)
  {
  }

  /** Each sink sits at its listing index and each source after all the
      sinks, with its truncated internal name at the same index. */
  lemma EnumeratePlacesEntries(hostApiIndex: int, sinks: seq<ListEntry>, sources: seq<ListEntry>)
    requires |sinks| + |sources| <= MaxDevices
    ensures var t := Enumerate(hostApiIndex, sinks, sources);
      && |t.devices| == |t.internalNames| == |sinks| + |sources|
      && (forall i :: 0 <= i < |sinks| ==>
            t.devices[i] == RecordFor(Sink, hostApiIndex, sinks[i]) && t.internalNames[i] == Truncate(sinks[i].name))
      && (forall j :: 0 <= j < |sources| ==>
            && t.devices[|sinks| + j] == RecordFor(Source, hostApiIndex, sources[j])
            && t.internalNames[|sinks| + j] == Truncate(sources[j].name))
  {
    var t := Enumerate(hostApiIndex, sinks, sources);
    ListingsInOrder(hostApiIndex, sinks, sources, t.devices, t.internalNames);
  }

  /** `k` is the default device for `dir`: the least index with a positive
      channel count for that direction, or `NoDevice` if there is none. */
  predicate IsDefault(devices: seq<DeviceRecord>, dir: Direction, k: int)
  {
    if k == NoDevice then
      forall i :: 0 <= i < |devices| ==> MaxChannels(devices[i], dir) <= 0
    else
      && 0 <= k < |devices|
      && MaxChannels(devices[k], dir) > 0
      && forall i :: 0 <= i < k ==> MaxChannels(devices[i], dir) <= 0
  }

  /** There is exactly one default per direction. */
  lemma DefaultIsUnique(devices: seq<DeviceRecord>, dir: Direction, k1: int, k2: int)
    requires IsDefault(devices, dir, k1) && IsDefault(devices, dir, k2)
    ensures k1 == k2
  {
  }

  /** The single pass over the table that picks both defaults. */
  method SelectDefaults(devices: seq<DeviceRecord>) returns (defaultInput: int, defaultOutput: int)
    ensures IsDefault(devices, Input, defaultInput)
    ensures IsDefault(devices, Output, defaultOutput)
  {
    defaultInput := NoDevice;
    defaultOutput := NoDevice;
    var i := 0;
    while i < |devices|
      invariant 0 <= i <= |devices|
      invariant defaultInput == NoDevice || 0 <= defaultInput < i
      invariant defaultOutput == NoDevice || 0 <= defaultOutput < i
      invariant IsDefault(devices[..i], Input, defaultInput)
      invariant IsDefault(devices[..i], Output, defaultOutput)
    {
      if devices[i].maxInputChannels > 0 && defaultInput == NoDevice {
        defaultInput := i;
      }
      if devices[i].maxOutputChannels > 0 && defaultOutput == NoDevice {
        defaultOutput := i;
      }
      i := i + 1;
    }
    assert devices[..i] == devices;
  }

  /** What initialization publishes about the devices. */
  datatype HostApiInfo = HostApiInfo(deviceCount: nat, defaultInputDevice: int, defaultOutputDevice: int)

  /** Publishing the table: both defaults start as `paNoDevice`; with at
      least one device, the pointer array is allocated (which can fail)
      and the defaults are chosen. */
  method PublishDevices(t: DeviceTable, pointersAllocated: bool) returns (err: PaError, info: HostApiInfo)
    ensures err == NoError || err == InsufficientMemory
    ensures err == InsufficientMemory <==> |t.devices| > 0 && !pointersAllocated
    ensures err == NoError ==>
      && info.deviceCount == |t.devices|
      && IsDefault(t.devices, Input, info.defaultInputDevice)
      && IsDefault(t.devices, Output, info.defaultOutputDevice)
  {
    info := HostApiInfo(|t.devices|, NoDevice, NoDevice);
    err := NoError;
    if |t.devices| > 0 {
      if !pointersAllocated {
        err := InsufficientMemory;
        return;
      }
      var defaultInput, defaultOutput := SelectDefaults(t.devices);
      info := info.(defaultInputDevice := defaultInput, defaultOutputDevice := defaultOutput);
    }
  }

  /** In a table built from the two listings, the first `|sinks|` devices
      are output-only with the sinks' channel counts, and the rest have no
      output channels. */
  lemma ChannelsByListing(
    hostApiIndex: int, sinks: seq<ListEntry>, sources: seq<ListEntry>, devices: seq<DeviceRecord>)
    requires devices == ListingRecords(Sink, hostApiIndex, sinks) + ListingRecords(Source, hostApiIndex, sources)
    ensures forall i :: 0 <= i < |sinks| ==>
      devices[i].maxInputChannels == 0 && devices[i].maxOutputChannels == sinks[i].channels
    ensures forall i :: |sinks| <= i < |devices| ==> devices[i].maxOutputChannels == 0
  {
    var sinkRecords := ListingRecords(Sink, hostApiIndex, sinks);
    var sourceRecords := ListingRecords(Source, hostApiIndex, sources);
    forall i | |sinks| <= i < |devices|
      ensures devices[i].maxOutputChannels == 0
    {
      assert devices[i] == sourceRecords[i - |sinks|];
    }
  }

  /** Sinks are listed first, so an output default is always a sink and an
      input default always a source; a sink with channels guarantees an
      output default. */
  lemma DefaultsFollowListingOrder(
    hostApiIndex: int, sinks: seq<ListEntry>, sources: seq<ListEntry>,
    devices: seq<DeviceRecord>, defaultInput: int, defaultOutput: int)
    requires |sinks| + |sources| <= MaxDevices
    requires devices == Enumerate(hostApiIndex, sinks, sources).devices
    requires IsDefault(devices, Input, defaultInput)
    requires IsDefault(devices, Output, defaultOutput)
    ensures defaultOutput != NoDevice ==> defaultOutput < |sinks|
    ensures defaultInput != NoDevice ==> defaultInput >= |sinks|
    ensures (exists i :: 0 <= i < |sinks| && sinks[i].channels > 0) ==> defaultOutput != NoDevice
  {
    ChannelsByListing(hostApiIndex, sinks, sources, devices);
    DefaultsByChannels(|sinks|, devices, defaultInput, defaultOutput);
  }

  /** The same, for any table whose first `sinkCount` devices have no
      input channels and whose other devices have no output channels. */
  lemma DefaultsByChannels(sinkCount: int, devices: seq<DeviceRecord>, defaultInput: int, defaultOutput: int)
    requires 0 <= sinkCount <= |devices|
    requires forall i :: 0 <= i < sinkCount ==> devices[i].maxInputChannels == 0
    requires forall i :: sinkCount <= i < |devices| ==> devices[i].maxOutputChannels == 0
    requires IsDefault(devices, Input, defaultInput)
    requires IsDefault(devices, Output, defaultOutput)
    ensures defaultOutput != NoDevice ==> defaultOutput < sinkCount
    ensures defaultInput != NoDevice ==> defaultInput >= sinkCount
    ensures (exists i :: 0 <= i < sinkCount && devices[i].maxOutputChannels > 0) ==> defaultOutput != NoDevice
  {
  }

  /** Two sinks (two channels and one) and one source (one channel): three
      devices, the first sink is the default output and the source the
      default input. */
  lemma TwoSinksOneSource(a: ListEntry, b: ListEntry, c: ListEntry)
    requires a.channels == 2 && b.channels == 1 && c.channels == 1
    ensures var devices := Enumerate(0, [a, b], [c]).devices;
      && |devices| == 3
      && IsDefault(devices, Output, 0)
      && IsDefault(devices, Input, 2)
  {
    var devices := Enumerate(0, [a, b], [c]).devices;
    assert devices[0] == RecordFor(Sink, 0, a);
    assert devices[1] == RecordFor(Sink, 0, b);
    assert devices[2] == RecordFor(Source, 0, c);
  }
}

=== FILE: format_support.dfy ===
/** Format-support validation (`IsFormatSupported`).

    For each direction that is present, input first, four checks run in a
    fixed order and the first that fails decides the answer. The sample
    rate is never looked at.
 */
module FormatSupport {
  import opened PaTypes

  /** The verdict for one direction, as the source writes it out twice. */
  function DirectionVerdict(p: StreamParameters, devices: seq<DeviceRecord>, dir: Direction): (r: PaError)
    requires DeviceRefOk(p, devices)
  {
    if p.sampleFormat & PaCustomFormat != 0 then SampleFormatNotSupported
    else if p.device == UseHostApiSpecificDeviceSpecification then InvalidDevice
    else if p.channelCount > MaxChannels(devices[p.device], dir) then InvalidChannelCount
    else if p.hasStreamInfo then IncompatibleHostApiSpecificStreamInfo
    else FormatIsSupported
  }

  /** A direction is acceptable when it passes every check. */
  predicate Acceptable(p: StreamParameters, devices: seq<DeviceRecord>, dir: Direction)
    requires DeviceRefOk(p, devices)
  {
    && p.sampleFormat & PaCustomFormat == 0
    && p.device != UseHostApiSpecificDeviceSpecification
    && p.channelCount <= MaxChannels(devices[p.device], dir)
    && !p.hasStreamInfo
  }

  predicate OptionalAcceptable(p: Option<StreamParameters>, devices: seq<DeviceRecord>, dir: Direction)
    requires OptionalDeviceRefOk(p, devices)
  {
    p.Some? ==> Acceptable(p.value, devices, dir)
  }

  function IsFormatSupported(
    input: Option<StreamParameters>,
    output: Option<StreamParameters>,
    devices: seq<DeviceRecord>,
    sampleRate: nat): (r: PaError)
    requires OptionalDeviceRefOk(input, devices) && OptionalDeviceRefOk(output, devices)
    ensures r == FormatIsSupported <==>
      OptionalAcceptable(input, devices, Input) && OptionalAcceptable(output, devices, Output)
    ensures r in {FormatIsSupported, SampleFormatNotSupported, InvalidDevice,
                  InvalidChannelCount, IncompatibleHostApiSpecificStreamInfo}
    ensures input.Some? && !Acceptable(input.value, devices, Input) ==>
      r == DirectionVerdict(input.value, devices, Input)
  {
    var verdictIn := if input.Some? then DirectionVerdict(input.value, devices, Input) else FormatIsSupported;
    if verdictIn != FormatIsSupported then verdictIn
    else if output.Some? then DirectionVerdict(output.value, devices, Output)
    else FormatIsSupported
  }

  /** An independent statement of the same rule: a flat list of checks, in
      order, each with the error it raises. */
  datatype Check = Check(fails: bool, error: PaError)

  function DirectionChecks(p: StreamParameters, devices: seq<DeviceRecord>, dir: Direction): seq<Check>
  {
    [ Check(p.sampleFormat & PaCustomFormat != 0, SampleFormatNotSupported),
      Check(p.device == UseHostApiSpecificDeviceSpecification, InvalidDevice),
      Check(0 <= p.device < |devices| && p.channelCount > MaxChannels(devices[p.device], dir), InvalidChannelCount),
      Check(p.hasStreamInfo, IncompatibleHostApiSpecificStreamInfo) ]
  }

  function OptionalChecks(p: Option<StreamParameters>, devices: seq<DeviceRecord>, dir: Direction): seq<Check>
  {
    if p.Some? then DirectionChecks(p.value, devices, dir) else []
  }

  /** The error of the first failing check, or success. */
  function FirstFailure(checks: seq<Check>): PaError
  {
    if checks == [] then NoError
    else if checks[0].fails then checks[0].error
    else FirstFailure(checks[1..])
  }

  predicate ErrorsAreErrors(checks: seq<Check>)
  {
    forall i :: 0 <= i < |checks| ==> checks[i].error != NoError
  }

  lemma {:induction false} FirstFailureAppend(a: seq<Check>, b: seq<Check>)
    requires ErrorsAreErrors(a)
    ensures FirstFailure(a + b) == if FirstFailure(a) != NoError then FirstFailure(a) else FirstFailure(b)
    decreases |a|
  {
    if a != [] {
      assert (a + b)[1..] == a[1..] + b;
      FirstFailureAppend(a[1..], b);
    } else {
      assert a + b == b;
    }
  }

  lemma DirectionVerdictIsFirstFailure(p: StreamParameters, devices: seq<DeviceRecord>, dir: Direction)
    requires DeviceRefOk(p, devices)
    ensures DirectionVerdict(p, devices, dir) == FirstFailure(DirectionChecks(p, devices, dir))
  {
    var cs := DirectionChecks(p, devices, dir);
    assert FirstFailure(cs[3..]) == FirstFailure([cs[3]]);
    assert FirstFailure(cs[2..]) == if cs[2].fails then cs[2].error else FirstFailure(cs[3..]);
    assert FirstFailure(cs[1..]) == if cs[1].fails then cs[1].error else FirstFailure(cs[2..]);
  }

  /** `IsFormatSupported` answers with the first failing check of the input
      direction followed by the output direction. */
  lemma IsFormatSupportedIsFirstFailure(
    input: Option<StreamParameters>,
    output: Option<StreamParameters>,
    devices: seq<DeviceRecord>,
    sampleRate: nat)
    requires OptionalDeviceRefOk(input, devices) && OptionalDeviceRefOk(output, devices)
    ensures IsFormatSupported(input, output, devices, sampleRate)
            == FirstFailure(OptionalChecks(input, devices, Input) + OptionalChecks(output, devices, Output))
  {
    var a := OptionalChecks(input, devices, Input);
    var b := OptionalChecks(output, devices, Output);
    FirstFailureAppend(a, b);
    if input.Some? {
      DirectionVerdictIsFirstFailure(input.value, devices, Input);
    }
    if output.Some? {
      DirectionVerdictIsFirstFailure(output.value, devices, Output);
    }
  }

  /** The sample rate never changes the answer. */
  lemma SampleRateIgnored(
    input: Option<StreamParameters>,
    output: Option<StreamParameters>,
    devices: seq<DeviceRecord>,
    rate1: nat, rate2: nat)
    requires OptionalDeviceRefOk(input, devices) && OptionalDeviceRefOk(output, devices)
    ensures IsFormatSupported(input, output, devices, rate1) == IsFormatSupported(input, output, devices, rate2)
  {
  }

  /** Too many channels for the chosen device is rejected as such, provided
      the earlier checks pass. */
  lemma TooManyChannelsRejected(p: StreamParameters, devices: seq<DeviceRecord>, dir: Direction)
    requires 0 <= p.device < |devices|
    requires p.sampleFormat & PaCustomFormat == 0
    requires p.channelCount > MaxChannels(devices[p.device], dir)
    ensures DirectionVerdict(p, devices, dir) == InvalidChannelCount
  {
  }
}

=== FILE: formats.dfy ===
/** Mapping of PortAudio sample formats onto PulseAudio wire formats
    (`PulseAudioConvertPortaudioFormatToPulseAudio`).

    The mapping is a `switch` on the exact tag: the six standard formats
    each select a little-endian wire format, the custom and non-interleaved
    tags are refused, and every other value (a combination of bits, say)
    falls through without touching the sample specification and without an
    error.
 */
module FormatMapping {
  import opened PaTypes

  predicate IsStandardFormat(fmt: SampleFormat)
  {
    fmt in {PaFloat32, PaInt32, PaInt24, PaInt16, PaInt8, PaUInt8}
  }

  /** What each PortAudio tag promises about one sample. */
  function PaSampleBits(fmt: SampleFormat): nat
    requires IsStandardFormat(fmt)
  {
    if fmt == PaFloat32 || fmt == PaInt32 then 32
    else if fmt == PaInt24 then 24
    else if fmt == PaInt16 then 16
    else 8
  }

  predicate PaIsFloat(fmt: SampleFormat) { fmt == PaFloat32 }

  predicate PaIsSigned(fmt: SampleFormat) { fmt != PaUInt8 }

  /** What each PulseAudio wire format carries per sample. */
  function WireBits(w: WireFormat): nat
  {
    match w
    case U8 => 8
    case S16LE => 16
    case S24LE => 24
    case S32LE | Float32LE => 32
  }

  predicate WireIsFloat(w: WireFormat) { w == Float32LE }

  predicate WireIsSigned(w: WireFormat) { w != U8 }

  datatype Conversion = Conversion(err: PaError, spec: SampleSpec)

  /** The conversion keeps the sample width and the integer/float kind of
      every standard format, and its signedness for all of them but `paInt8`,
      for which PulseAudio offers no signed 8-bit format. */
  function ConvertFormat(fmt: SampleFormat, spec: SampleSpec): (r: Conversion)
    ensures r.err == NotInitialized <==> fmt == PaCustomFormat || fmt == PaNonInterleaved
    ensures r.err == NoError || r.err == NotInitialized
    ensures r.spec.rate == spec.rate && r.spec.channels == spec.channels
    ensures !IsStandardFormat(fmt) ==> r.spec == spec
    ensures IsStandardFormat(fmt) ==>
      && r.spec.format.Some?
      && WireBits(r.spec.format.value) == PaSampleBits(fmt)
      && (WireIsFloat(r.spec.format.value) <==> PaIsFloat(fmt))
      && (fmt != PaInt8 ==> (WireIsSigned(r.spec.format.value) <==> PaIsSigned(fmt)))
  {
    if fmt == PaFloat32 then Conversion(NoError, spec.(format := Some(Float32LE)))
    else if fmt == PaInt32 then Conversion(NoError, spec.(format := Some(S32LE)))
    else if fmt == PaInt24 then Conversion(NoError, spec.(format := Some(S24LE)))
    else if fmt == PaInt16 then Conversion(NoError, spec.(format := Some(S16LE)))
    else if fmt == PaInt8 then Conversion(NoError, spec.(format := Some(U8)))
    else if fmt == PaUInt8 then Conversion(NoError, spec.(format := Some(U8)))
    else if fmt == PaCustomFormat || fmt == PaNonInterleaved then Conversion(NotInitialized, spec)
    else Conversion(NoError, spec)
  }

  /** The PortAudio tag a wire format naturally comes from. */
  function PortAudioFormatFor(w: WireFormat): (fmt: SampleFormat)
    ensures IsStandardFormat(fmt)
  {
    match w
    case U8 => PaUInt8
    case S16LE => PaInt16
    case S24LE => PaInt24
    case S32LE => PaInt32
    case Float32LE => PaFloat32
  }

  /** Every wire format the host API uses is reached, from its natural tag. */
  lemma WireFormatRoundTrip(w: WireFormat, spec: SampleSpec)
    ensures ConvertFormat(PortAudioFormatFor(w), spec) == Conversion(NoError, spec.(format := Some(w)))
  {
  }

  /** Going to the wire and back recovers every standard tag except
      `paInt8`, which comes back as `paUInt8`. */
  lemma PortAudioFormatRoundTrip(fmt: SampleFormat, spec: SampleSpec)
    requires IsStandardFormat(fmt)
    ensures PortAudioFormatFor(ConvertFormat(fmt, spec).spec.format.value)
            == (if fmt == PaInt8 then PaUInt8 else fmt)
  {
  }

  /** `paInt8` and `paUInt8` are the only two tags that share a wire
      format. */
  lemma OnlyEightBitFormatsCollide(f: SampleFormat, g: SampleFormat, spec: SampleSpec)
    requires IsStandardFormat(f) && IsStandardFormat(g) && f != g
    ensures ConvertFormat(f, spec).spec.format == ConvertFormat(g, spec).spec.format
            <==> {f, g} == {PaInt8, PaUInt8}
  {
  }
}

=== FILE: latency.dfy ===
/** The underrun-adaptive latency controller of an output stream
    (`PulseAudioStreamUnderflowCb`).

    Every underrun notification bumps a counter. Once six have accumulated
    and the latency is still below the two-second guard, the latency grows
    by half, both the maximum length and the target length of the stream's
    buffer are recomputed from it, and the counter starts again from zero.
 */
module LatencyController {
  import opened PaTypes

  const UnderflowThreshold: nat := 6
  /** Microseconds; a guard on when to grow, not a cap on the result. */
  const LatencyGuard: nat := 2_000_000

  /** `pa_buffer_attr`: every field is a `uint32_t`. */
  datatype BufferAttr = BufferAttr(
    maxlength: uint32,
    tlength: uint32,
    prebuf: uint32,
    minreq: uint32,
    fragsize: uint32)

  /** The part of a stream the controller reads and writes. */
  datatype LatencyState = LatencyState(
    underflows: nat,
    latency: nat,
    attr: BufferAttr,
    outSpec: SampleSpec)

  /** `toBytes` stands for `pa_usec_to_bytes`, whose `size_t` result is
      stored into 32-bit fields. */
  type UsecToBytes = (nat, SampleSpec) -> nat

  /** Result of one notification: the new state, and whether the new buffer
      attributes were pushed to the server with `pa_stream_set_buffer_attr`. */
  datatype UnderflowOutcome = UnderflowOutcome(state: LatencyState, reconfigured: bool)

  predicate Escalates(st: LatencyState)
  {
    st.underflows + 1 >= UnderflowThreshold && st.latency < LatencyGuard
  }

  /** One underrun notification. A missing stream handle is reported and
      otherwise ignored. */
  function OnUnderflow(st: LatencyState, streamPresent: bool, toBytes: UsecToBytes): (r: UnderflowOutcome)
    ensures r.state.latency >= st.latency
    ensures r.state.outSpec == st.outSpec
    ensures r.reconfigured <==> streamPresent && Escalates(st)
    ensures !streamPresent ==> r.state == st
    ensures streamPresent && !Escalates(st) ==> r.state == st.(underflows := st.underflows + 1)
    ensures r.reconfigured ==>
      && r.state.underflows == 0
      && 2 * r.state.latency <= 3 * st.latency < 2 * r.state.latency + 2
      && r.state.attr.maxlength == r.state.attr.tlength == ToU32(toBytes(r.state.latency, st.outSpec))
      && r.state.attr.(maxlength := st.attr.maxlength, tlength := st.attr.tlength) == st.attr
  {
    if !streamPresent then
      UnderflowOutcome(st, false)
    else
      var counted := st.underflows + 1;
      if counted >= UnderflowThreshold && st.latency < LatencyGuard then
        var latency := (st.latency * 3) / 2;
        var bytes := ToU32(toBytes(latency, st.outSpec));
        var attr := st.attr.(maxlength := bytes, tlength := bytes);
        UnderflowOutcome(LatencyState(0, latency, attr, st.outSpec), true)
      else
        UnderflowOutcome(st.(underflows := counted), false)
  }

  /** The state after `n` consecutive underrun notifications. */
  function AfterUnderflows(st: LatencyState, n: nat, toBytes: UsecToBytes): LatencyState
    decreases n
  {
    if n == 0 then st
    else AfterUnderflows(OnUnderflow(st, true, toBytes).state, n - 1, toBytes)
  }

  /** The latency never decreases, however many underruns arrive. */
  lemma {:induction false} LatencyNeverDecreases(st: LatencyState, n: nat, toBytes: UsecToBytes)
    ensures AfterUnderflows(st, n, toBytes).latency >= st.latency
    ensures AfterUnderflows(st, n, toBytes).outSpec == st.outSpec
    decreases n
  {
    if n > 0 {
      LatencyNeverDecreases(OnUnderflow(st, true, toBytes).state, n - 1, toBytes);
    }
  }

  /** Once the latency has reached the guard nothing but the counter
      changes again, and the counter is never reset. */
  lemma {:induction false} FrozenAtGuard(st: LatencyState, n: nat, toBytes: UsecToBytes)
    requires st.latency >= LatencyGuard
    ensures AfterUnderflows(st, n, toBytes) == st.(underflows := st.underflows + n)
    decreases n
  {
    if n > 0 {
      FrozenAtGuard(st.(underflows := st.underflows + 1), n - 1, toBytes);
    }
  }

  /** Below the threshold, underruns only count. */
  lemma {:induction false} QuietBelowThreshold(st: LatencyState, n: nat, toBytes: UsecToBytes)
    requires st.underflows + n < UnderflowThreshold
    ensures AfterUnderflows(st, n, toBytes) == st.(underflows := st.underflows + n)
    decreases n
  {
    if n > 0 {
      QuietBelowThreshold(st.(underflows := st.underflows + 1), n - 1, toBytes);
    }
  }

  /** From a fresh counter and a latency below the guard, the sixth
      underrun, and not an earlier one, grows the latency by half and resets
      the counter. */
  lemma SixthUnderrunEscalates(st: LatencyState, toBytes: UsecToBytes)
    requires st.underflows == 0 && st.latency < LatencyGuard
    ensures AfterUnderflows(st, 5, toBytes) == st.(underflows := 5)
    ensures AfterUnderflows(st, 6, toBytes).latency == st.latency * 3 / 2
    ensures AfterUnderflows(st, 6, toBytes).underflows == 0
  {
    QuietBelowThreshold(st, 5, toBytes);
    AfterUnderflowsSplit(st, 5, 1, toBytes);
  }

  lemma {:induction false} AfterUnderflowsSplit(st: LatencyState, m: nat, n: nat, toBytes: UsecToBytes)
    ensures AfterUnderflows(st, m + n, toBytes) == AfterUnderflows(AfterUnderflows(st, m, toBytes), n, toBytes)
    decreases m
  {
    if m > 0 {
      AfterUnderflowsSplit(OnUnderflow(st, true, toBytes).state, m - 1, n, toBytes);
    }
  }

  /** While the latency is below the guard the counter stays below the
      threshold: the controller never lets six underruns pass unanswered. */
  predicate CounterInRange(st: LatencyState)
  {
    st.latency < LatencyGuard ==> st.underflows < UnderflowThreshold
  }

  lemma {:induction false} CounterStaysInRange(st: LatencyState, n: nat, toBytes: UsecToBytes)
    requires CounterInRange(st)
    ensures CounterInRange(AfterUnderflows(st, n, toBytes))
    decreases n
  {
    if n > 0 {
      CounterStaysInRange(OnUnderflow(st, true, toBytes).state, n - 1, toBytes);
    }
  }

  /** The guard bounds when the latency grows, not how far: starting below
      one and a half times the guard, it stays there. */
  lemma {:induction false} LatencyBounded(st: LatencyState, n: nat, toBytes: UsecToBytes)
    requires st.latency < LatencyGuard * 3 / 2
    ensures AfterUnderflows(st, n, toBytes).latency < LatencyGuard * 3 / 2
    decreases n
  {
    if n > 0 {
      LatencyBounded(OnUnderflow(st, true, toBytes).state, n - 1, toBytes);
    }
  }

  /** Just below the guard, one escalation overshoots it. */
  lemma OvershootsGuard(st: LatencyState, toBytes: UsecToBytes)
    requires st.underflows == 5 && st.latency == LatencyGuard - 1
    ensures OnUnderflow(st, true, toBytes).state.latency == 2_999_998 > LatencyGuard
  {
  }

  /** A latency of 0 or 1 microseconds can never grow: every sixth
      underrun resets the counter and leaves the latency where it was. */
  lemma {:induction false} TinyLatencyIsStuck(st: LatencyState, n: nat, toBytes: UsecToBytes)
    requires st.latency < 2
    ensures AfterUnderflows(st, n, toBytes).latency == st.latency
    decreases n
  {
    if n > 0 {
      TinyLatencyIsStuck(OnUnderflow(st, true, toBytes).state, n - 1, toBytes);
    }
  }

  /** Any other latency below the guard strictly grows on escalation. */
  lemma EscalationGrows(st: LatencyState, toBytes: UsecToBytes)
    requires 2 <= st.latency && Escalates(st)
    ensures OnUnderflow(st, true, toBytes).state.latency > st.latency
  {
  }
}

=== FILE: pa_types.dfy ===
/** Types shared by the model of PortAudio's PulseAudio host API:
    PortAudio error codes, sample-format tags, stream flags, stream
    parameters, device records and PulseAudio sample specifications.

    The numeric tags are PortAudio's public constants (portaudio.h, which is
    not part of this model); they are reproduced here because the host API
    compares against them bit for bit.
 */
module PaTypes {

  datatype Option<+T> = None | Some(value: T)

  /** The PortAudio error codes this host API can produce. */
  datatype PaError =
    | NoError
    | NotInitialized
    | InvalidChannelCount
    | InvalidDevice
    | InvalidFlag
    | SampleFormatNotSupported
    | InsufficientMemory
    | IncompatibleHostApiSpecificStreamInfo

  /** `paFormatIsSupported` is the same value as `paNoError`. */
  const FormatIsSupported: PaError := NoError

  /** C integer widths that matter where the source narrows a value. */
  type uint8 = x: int | 0 <= x < 0x100
  type uint32 = x: int | 0 <= x < 0x1_0000_0000

  /** Conversion of an integer to an unsigned C type keeps it modulo 2^n
      (Dafny's `%` never returns a negative remainder, matching C here). */
  function ToU8(x: int): (r: uint8)
    ensures 0 <= x < 0x100 ==> r == x
  {
    x % 0x100
  }

  function ToU32(x: int): (r: uint32)
    ensures 0 <= x < 0x1_0000_0000 ==> r == x
  {
    x % 0x1_0000_0000
  }

  /** `PaSampleFormat` is an `unsigned long` bit set. */
  type SampleFormat = bv64

  const PaFloat32: SampleFormat := 0x0000_0001
  const PaInt32: SampleFormat := 0x0000_0002
  const PaInt24: SampleFormat := 0x0000_0004
  const PaInt16: SampleFormat := 0x0000_0008
  const PaInt8: SampleFormat := 0x0000_0010
  const PaUInt8: SampleFormat := 0x0000_0020
  const PaCustomFormat: SampleFormat := 0x0001_0000
  const PaNonInterleaved: SampleFormat := 0x8000_0000

  /** `PaStreamFlags` is an `unsigned long` bit set; the upper 16 of its low
      32 bits are reserved for platform-specific flags. */
  type StreamFlags = bv64

  const PlatformSpecificFlags: StreamFlags := 0xFFFF_0000

  /** Special device indices. */
  const NoDevice: int := -1
  const UseHostApiSpecificDeviceSpecification: int := -2

  datatype Direction = Input | Output

  /** `PaStreamParameters`, without the suggested latency (a double the host
      API never reads). `hasStreamInfo` says whether
      `hostApiSpecificStreamInfo` is non-null. */
  datatype StreamParameters = StreamParameters(
    device: int,
    channelCount: int,
    sampleFormat: SampleFormat,
    hasStreamInfo: bool)

  /** `PaDeviceInfo`. Latencies are the microsecond values PulseAudio
      reports, kept as opaque numbers. */
  datatype DeviceRecord = DeviceRecord(
    structVersion: int,
    hostApi: int,
    name: string,
    maxInputChannels: int,
    maxOutputChannels: int,
    defaultLowInputLatency: nat,
    defaultLowOutputLatency: nat,
    defaultHighInputLatency: nat,
    defaultHighOutputLatency: nat,
    defaultSampleRate: nat)

  function MaxChannels(d: DeviceRecord, dir: Direction): int
  {
    match dir
    case Input => d.maxInputChannels
    case Output => d.maxOutputChannels
  }

  /** What PortAudio's front end guarantees of a device index before it
      calls the host API: either the host-API-specific marker or an index
      into the device table. */
  predicate DeviceRefOk(p: StreamParameters, devices: seq<DeviceRecord>)
  {
    p.device == UseHostApiSpecificDeviceSpecification || 0 <= p.device < |devices|
  }

  predicate OptionalDeviceRefOk(p: Option<StreamParameters>, devices: seq<DeviceRecord>)
  {
    p.Some? ==> DeviceRefOk(p.value, devices)
  }

  /** PulseAudio sample formats the host API can select. */
  datatype WireFormat = U8 | S16LE | S24LE | S32LE | Float32LE

  /** `pa_sample_spec`. `format` is `None` while the field still holds
      whatever the freshly allocated memory contained. */
  datatype SampleSpec = SampleSpec(format: Option<WireFormat>, rate: uint32, channels: uint8)

  const UnsetSpec: SampleSpec := SampleSpec(None, 0, 0)
}

=== FILE: stream_open.dfy ===
/** Validation and sizing when a stream is opened (`OpenStream`), and the
    ring buffer a blocking-mode direction gets
    (`PulseAudioBlockingInitRingBuffer`).

    The flag test comes first and returns directly. Everything after it
    jumps to a single error label, which returns `paNotInitialized`
    whatever the reason and, once the stream structure exists, also frees
    the host API. `OpenStreamAsWritten` keeps that behaviour;
    `OpenStream` returns the reason instead and leaves the host API alone.
    Both share `OpenSequence`, which records the value of the source's
    `result` variable at the point the error label is reached.
 */
module StreamOpen {
  import opened PaTypes
  import FormatMapping
  import FormatSupport

  /** A blocking-mode ring holds this many frames. */
  const RingFrames: int := 4096

  /** `PaUtilRingBuffer` as initialised here. */
  datatype RingBuffer = RingBuffer(elementSizeBytes: nat, elementCount: int)

  datatype RingInit = RingReady(ring: RingBuffer) | RingNoMemory | RingRejected(code: int)

  /** The calls `OpenStream` makes into code outside this file, as
      uninterpreted values. */
  datatype Env = Env(
    sampleSize: SampleFormat -> int,       // Pa_GetSampleSize
    specValid: SampleSpec -> bool,         // pa_sample_spec_valid
    subStreamCreated: Direction -> bool,   // pa_stream_new returned a stream
    bufferAllocated: int -> bool,          // malloc of that many bytes succeeded
    ringInitResult: int -> int,            // PaUtil_InitializeRingBuffer, 0 on success
    streamAllocated: bool,                 // PaUtil_AllocateMemory for the stream
    bufferProcessorResult: PaError)        // PaUtil_InitializeBufferProcessor

  /** A ring of 4096 frames of one-byte elements. */
  function InitRingBuffer(frameSize: int, env: Env): (r: RingInit)
    ensures var bytes := RingFrames * frameSize;
      && (r.RingNoMemory? <==> !env.bufferAllocated(bytes))
      && (r.RingReady? <==> env.bufferAllocated(bytes) && env.ringInitResult(bytes) == 0)
      && (r.RingReady? ==> r.ring.elementSizeBytes == 1 && r.ring.elementCount == bytes)
      && (r.RingRejected? ==> r.code == env.ringInitResult(bytes) != 0)
  {
    var bytes := RingFrames * frameSize;
    if !env.bufferAllocated(bytes) then RingNoMemory
    else
      var code := env.ringInitResult(bytes);
      if code == 0 then RingReady(RingBuffer(1, bytes)) else RingRejected(code)
  }

  /** The three per-direction checks of `OpenStream`: unlike
      `IsFormatSupported` there is no custom-format check. */
  function OpenCheck(p: StreamParameters, devices: seq<DeviceRecord>, dir: Direction): (r: PaError)
    requires DeviceRefOk(p, devices)
    ensures r == NoError <==>
      && p.device != UseHostApiSpecificDeviceSpecification
      && p.channelCount <= MaxChannels(devices[p.device], dir)
      && !p.hasStreamInfo
    ensures r in {NoError, InvalidDevice, InvalidChannelCount, IncompatibleHostApiSpecificStreamInfo}
    ensures r != NoError ==>
      FormatSupport.DirectionVerdict(p, devices, dir) in {r, SampleFormatNotSupported}
  {
    if p.device == UseHostApiSpecificDeviceSpecification then InvalidDevice
    else if p.channelCount > MaxChannels(devices[p.device], dir) then InvalidChannelCount
    else if p.hasStreamInfo then IncompatibleHostApiSpecificStreamInfo
    else NoError
  }

  /** The sample specification of a direction: the converted format (the
      conversion's error is not looked at), the rate, and the channel
      count narrowed to `uint8_t`. */
  function SubStreamSpec(p: StreamParameters, sampleRate: uint32): SampleSpec
  {
    FormatMapping.ConvertFormat(p.sampleFormat, UnsetSpec).spec.(rate := sampleRate, channels := ToU8(p.channelCount))
  }

  function FrameSize(p: StreamParameters, env: Env): int
  {
    env.sampleSize(p.sampleFormat) * p.channelCount
  }

  /** One direction of an open stream. `created` is false when
      `pa_stream_new` failed, which the source only reports. */
  datatype SubStream = SubStream(frameSize: int, spec: SampleSpec, created: bool, ring: Option<RingBuffer>)

  datatype StreamSetup = StreamSetup(
    input: Option<SubStream>,
    output: Option<SubStream>,
    device: int,
    blocking: bool)

  /** Setting up one direction either yields it or jumps to the error
      label with the value `result` then holds. */
  datatype DirectionStage = DirectionReady(sub: SubStream) | DirectionFailed(result: PaError)

  function PrepareDirection(
    p: StreamParameters, dir: Direction, devices: seq<DeviceRecord>,
    sampleRate: uint32, blocking: bool, env: Env): DirectionStage
    requires DeviceRefOk(p, devices)
  {
    var check := OpenCheck(p, devices, dir);
    if check != NoError then DirectionFailed(check)
    else
      var frameSize := FrameSize(p, env);
      var spec := SubStreamSpec(p, sampleRate);
      if !env.specValid(spec) then DirectionFailed(NoError)
      else
        var sub := SubStream(frameSize, spec, env.subStreamCreated(dir), None);
        if !blocking then DirectionReady(sub)
        else
          var ring := InitRingBuffer(frameSize, env);
          if ring.RingReady? then DirectionReady(sub.(ring := Some(ring.ring)))
          else if dir == Input then DirectionReady(sub)
          else DirectionFailed(NoError)
  }

  function PrepareOptional(
    p: Option<StreamParameters>, dir: Direction, devices: seq<DeviceRecord>,
    sampleRate: uint32, blocking: bool, env: Env): (r: Option<DirectionStage>)
    requires OptionalDeviceRefOk(p, devices)
    ensures r.Some? <==> p.Some?
  {
    if p.Some? then Some(PrepareDirection(p.value, dir, devices, sampleRate, blocking, env)) else None
  }

  /** How far `OpenStream` gets: refused by the flag test, jumped to the
      error label (with `result` and whether the stream structure had been
      allocated), or opened. */
  datatype Stage =
    | Refused(err: PaError)
    | Aborted(result: PaError, streamAllocated: bool)
    | Opened(stream: StreamSetup)

  /** The front end guarantees at least one direction and valid device
      indices. */
  predicate OpenRequestOk(
    devices: seq<DeviceRecord>, input: Option<StreamParameters>, output: Option<StreamParameters>)
  {
    && OptionalDeviceRefOk(input, devices)
    && OptionalDeviceRefOk(output, devices)
    && (input.Some? || output.Some?)
  }

  function OpenSequence(
    devices: seq<DeviceRecord>,
    input: Option<StreamParameters>, output: Option<StreamParameters>,
    sampleRate: uint32, flags: StreamFlags, hasCallback: bool, env: Env): Stage
    requires OpenRequestOk(devices, input, output)
  {
    if flags & PlatformSpecificFlags != 0 then Refused(InvalidFlag)
    else if !env.streamAllocated then Aborted(InsufficientMemory, false)
    else
      var blocking := !hasCallback;
      var inStage := PrepareOptional(input, Input, devices, sampleRate, blocking, env);
      if inStage.Some? && inStage.value.DirectionFailed? then Aborted(inStage.value.result, true)
      else
        var outStage := PrepareOptional(output, Output, devices, sampleRate, blocking, env);
        if outStage.Some? && outStage.value.DirectionFailed? then Aborted(outStage.value.result, true)
        else if env.bufferProcessorResult != NoError then Aborted(env.bufferProcessorResult, true)
        else
          var device := if output.Some? then output.value.device else input.value.device;
          Opened(StreamSetup(
            if inStage.Some? then Some(inStage.value.sub) else None,
            if outStage.Some? then Some(outStage.value.sub) else None,
            device, blocking))
  }

  /** What a successfully opened stream promises about the request. */
  predicate Realizes(
    s: StreamSetup, devices: seq<DeviceRecord>,
    input: Option<StreamParameters>, output: Option<StreamParameters>,
    sampleRate: uint32, hasCallback: bool, env: Env)
    requires OpenRequestOk(devices, input, output)
  {
    && (s.blocking <==> !hasCallback)
    && (s.input.Some? <==> input.Some?)
    && (s.output.Some? <==> output.Some?)
    && s.device == (if output.Some? then output.value.device else input.value.device)
    && (input.Some? ==> SubStreamRealizes(s.input.value, input.value, Input, devices, sampleRate, s.blocking, env))
    && (output.Some? ==> SubStreamRealizes(s.output.value, output.value, Output, devices, sampleRate, s.blocking, env))
    && (output.Some? ==> (s.output.value.ring.Some? <==> s.blocking))
    && (input.Some? ==>
          (s.input.value.ring.Some? <==> s.blocking && InitRingBuffer(s.input.value.frameSize, env).RingReady?))
  }

  predicate SubStreamRealizes(
    sub: SubStream, p: StreamParameters, dir: Direction, devices: seq<DeviceRecord>,
    sampleRate: uint32, blocking: bool, env: Env)
    requires DeviceRefOk(p, devices)
  {
    && OpenCheck(p, devices, dir) == NoError
    && sub.frameSize == env.sampleSize(p.sampleFormat) * p.channelCount
    && sub.spec.format == FormatMapping.ConvertFormat(p.sampleFormat, UnsetSpec).spec.format
    && sub.spec.rate == sampleRate
    && sub.spec.channels == ToU8(p.channelCount)
    && env.specValid(sub.spec)
    && sub.created == env.subStreamCreated(dir)
    && (sub.ring.Some? ==> blocking && sub.ring.value == RingBuffer(1, RingFrames * sub.frameSize))
  }

  /** What `OpenStream` returns, and whether it freed the host API. */
  datatype OpenResult = OpenResult(err: PaError, stream: Option<StreamSetup>, hostApiReleased: bool)

  /** `OpenStream` as the source writes it. */
  function OpenStreamAsWritten(
    devices: seq<DeviceRecord>,
    input: Option<StreamParameters>, output: Option<StreamParameters>,
    sampleRate: uint32, flags: StreamFlags, hasCallback: bool, env: Env): (r: OpenResult)
    requires OpenRequestOk(devices, input, output)
    ensures r.err in {NoError, InvalidFlag, NotInitialized}
    ensures r.err == InvalidFlag <==> flags & PlatformSpecificFlags != 0
    ensures r.hostApiReleased <==> r.err == NotInitialized && env.streamAllocated
    ensures r.stream.Some? <==> r.err == NoError
  {
    match OpenSequence(devices, input, output, sampleRate, flags, hasCallback, env)
    case Refused(err) => OpenResult(err, None, false)
    case Aborted(_, structureExists) => OpenResult(NotInitialized, None, structureExists)
    case Opened(s) => OpenResult(NoError, Some(s), false)
  }

  /** `OpenStream` returning the reason it failed and keeping the host API. */
  function OpenStream(
    devices: seq<DeviceRecord>,
    input: Option<StreamParameters>, output: Option<StreamParameters>,
    sampleRate: uint32, flags: StreamFlags, hasCallback: bool, env: Env): (r: OpenResult)
    requires OpenRequestOk(devices, input, output)
    ensures !r.hostApiReleased
    ensures r.stream.Some? <==> r.err == NoError
    ensures flags & PlatformSpecificFlags != 0 ==> r.err == InvalidFlag
    ensures flags & PlatformSpecificFlags == 0 && !env.streamAllocated ==> r.err == InsufficientMemory
    ensures r.stream.Some? ==> Realizes(r.stream.value, devices, input, output, sampleRate, hasCallback, env)
  {
    match OpenSequence(devices, input, output, sampleRate, flags, hasCallback, env)
    case Refused(err) => OpenResult(err, None, false)
    case Aborted(result, _) => OpenResult(if result != NoError then result else NotInitialized, None, false)
    case Opened(s) => OpenResult(NoError, Some(s), false)
  }

  /** The input direction passes its checks and yields a valid
      specification, so that the output direction is examined. */
  predicate InputGetsThrough(
    devices: seq<DeviceRecord>, input: Option<StreamParameters>, sampleRate: uint32, env: Env)
    requires OptionalDeviceRefOk(input, devices)
  {
    input.Some? ==>
      && OpenCheck(input.value, devices, Input) == NoError
      && env.specValid(SubStreamSpec(input.value, sampleRate))
  }

  /** The per-direction checks run input first, each in the order device,
      channel count, stream info, and the first failure is reported. */
  lemma OpenStreamReportsFirstCheck(
    devices: seq<DeviceRecord>,
    input: Option<StreamParameters>, output: Option<StreamParameters>,
    sampleRate: uint32, flags: StreamFlags, hasCallback: bool, env: Env)
    requires OpenRequestOk(devices, input, output)
    requires flags & PlatformSpecificFlags == 0 && env.streamAllocated
    ensures input.Some? && OpenCheck(input.value, devices, Input) != NoError ==>
      OpenStream(devices, input, output, sampleRate, flags, hasCallback, env).err
        == OpenCheck(input.value, devices, Input)
    ensures InputGetsThrough(devices, input, sampleRate, env) &&
            output.Some? && OpenCheck(output.value, devices, Output) != NoError ==>
      OpenStream(devices, input, output, sampleRate, flags, hasCallback, env).err
        == OpenCheck(output.value, devices, Output)
  {
  }

  /** Without custom formats, `OpenStream` refuses a request with the same
      error `IsFormatSupported` gives it. */
  lemma OpenStreamAgreesWithIsFormatSupported(
    devices: seq<DeviceRecord>,
    input: Option<StreamParameters>, output: Option<StreamParameters>,
    sampleRate: uint32, flags: StreamFlags, hasCallback: bool, env: Env)
    requires OpenRequestOk(devices, input, output)
    requires flags & PlatformSpecificFlags == 0 && env.streamAllocated
    requires input.Some? ==> input.value.sampleFormat & PaCustomFormat == 0
    requires output.Some? ==> output.value.sampleFormat & PaCustomFormat == 0
    requires input.Some? ==> env.specValid(SubStreamSpec(input.value, sampleRate))
    requires FormatSupport.IsFormatSupported(input, output, devices, sampleRate) != FormatIsSupported
    ensures OpenStream(devices, input, output, sampleRate, flags, hasCallback, env).err
            == FormatSupport.IsFormatSupported(input, output, devices, sampleRate)
  {
    OpenStreamReportsFirstCheck(devices, input, output, sampleRate, flags, hasCallback, env);
  }

  /** Nothing outside the host API fails for this request. */
  predicate HealthyFor(
    env: Env, input: Option<StreamParameters>, output: Option<StreamParameters>,
    sampleRate: uint32, hasCallback: bool)
  {
    && env.streamAllocated
    && env.bufferProcessorResult == NoError
    && (input.Some? ==> env.specValid(SubStreamSpec(input.value, sampleRate)))
    && (output.Some? ==>
          var bytes := RingFrames * FrameSize(output.value, env);
          && env.specValid(SubStreamSpec(output.value, sampleRate))
          && (!hasCallback ==> env.bufferAllocated(bytes) && env.ringInitResult(bytes) == 0))
  }

  /** A request `IsFormatSupported` accepts opens, in both versions, when
      nothing outside the host API fails. */
  lemma SupportedRequestOpens(
    devices: seq<DeviceRecord>,
    input: Option<StreamParameters>, output: Option<StreamParameters>,
    sampleRate: uint32, flags: StreamFlags, hasCallback: bool, env: Env)
    requires OpenRequestOk(devices, input, output)
    requires flags & PlatformSpecificFlags == 0
    requires FormatSupport.IsFormatSupported(input, output, devices, sampleRate) == FormatIsSupported
    requires HealthyFor(env, input, output, sampleRate, hasCallback)
    ensures OpenStream(devices, input, output, sampleRate, flags, hasCallback, env).err == NoError
    ensures OpenStreamAsWritten(devices, input, output, sampleRate, flags, hasCallback, env).err == NoError
  {
  }

  /** The two versions differ only in what a failure reports. */
  lemma VersionsAgreeOnSuccess(
    devices: seq<DeviceRecord>,
    input: Option<StreamParameters>, output: Option<StreamParameters>,
    sampleRate: uint32, flags: StreamFlags, hasCallback: bool, env: Env)
    requires OpenRequestOk(devices, input, output)
    ensures var w := OpenStreamAsWritten(devices, input, output, sampleRate, flags, hasCallback, env);
      var c := OpenStream(devices, input, output, sampleRate, flags, hasCallback, env);
      && w.stream == c.stream
      && (flags & PlatformSpecificFlags != 0 ==> w.err == c.err == InvalidFlag)
      && (c.err == NoError ==> w.err == NoError)
      && (flags & PlatformSpecificFlags == 0 && c.err != NoError ==> w.err == NotInitialized)
  {
  }

  /** Too many output channels: `IsFormatSupported` says so, the source's
      `OpenStream` answers `paNotInitialized`, the corrected one says so. */
  lemma ChannelCountErrorLost(
    devices: seq<DeviceRecord>, output: StreamParameters,
    sampleRate: uint32, hasCallback: bool, env: Env)
    requires 0 <= output.device < |devices|
    requires output.sampleFormat & PaCustomFormat == 0
    requires output.channelCount > devices[output.device].maxOutputChannels
    requires env.streamAllocated
    ensures FormatSupport.IsFormatSupported(None, Some(output), devices, sampleRate) == InvalidChannelCount
    ensures OpenStreamAsWritten(devices, None, Some(output), sampleRate, 0, hasCallback, env).err == NotInitialized
    ensures OpenStream(devices, None, Some(output), sampleRate, 0, hasCallback, env).err == InvalidChannelCount
  {
  }

  /** Any failure after the stream structure exists makes the source's
      `OpenStream` free the host API; the corrected one never does. */
  lemma FailedOpenReleasesHostApi(
    devices: seq<DeviceRecord>,
    input: Option<StreamParameters>, output: Option<StreamParameters>,
    sampleRate: uint32, hasCallback: bool, env: Env)
    requires OpenRequestOk(devices, input, output)
    requires env.streamAllocated
    requires OpenStream(devices, input, output, sampleRate, 0, hasCallback, env).err != NoError
    ensures OpenStreamAsWritten(devices, input, output, sampleRate, 0, hasCallback, env).hostApiReleased
    ensures !OpenStream(devices, input, output, sampleRate, 0, hasCallback, env).hostApiReleased
  {
  }
}
